=== FILE: README.md ===
# Type mapping and OData query decisions of bit-framework, in Dafny

This project models two self-contained pieces of decision logic from the
bit-framework line-of-business framework and proves properties of them.

1. **Type-symbol classification and type-name mapping**
   (`BitTools/BitTools.Core/Extensions/ITypeSymbolExtensions.cs`). A code
   generator turns a compiler type description into semantic categories and
   into target type names. The categories are void, collection, queryable,
   nullable, enum, complex and DTO. The names are OData EDM names, TypeScript
   names and JavaScript default values. The compiler's symbol API becomes one
   immutable recursive datatype, `TypeSymbols.TypeSymbol`. It carries the name,
   the shape (array, named type with type arguments, type parameter with
   constraint types, other), the interfaces, the value-type flag, the base-type
   name, the type kind, the attribute names and the display string. Exceptions
   the source throws on a non-null symbol become `Result` failures.
   `Enumerable.Single` on two or more type arguments gives `MoreThanOneElement`.
   `GetElementType` on a non-collection gives `NotACollectionType`.
2. **Query-response materialisation in the OData action filter**
   (`Foundation/Server/Foundation.Api/Middlewares/WebApi/OData/ActionFilters/ODataEnableQueryAttribute.cs`).
   The filter decides which responses to leave alone. It settles the page size,
   filters before counting and counts before shaping. It picks the first
   executor that supports asynchronous execution. It truncates once, at
   materialisation, and it publishes the total count in one of two ways. The
   response value is a sequence tagged queryable or not, together with how
   its element type is read off its runtime type. When that reading or the
   reflection calls built on it throw, the outcome is `Thrown`. The OData library's
   collaborators are parameters: the `$filter` predicate, `applyRest` for the
   remaining query options, and each executor's `supportsAsyncExecution` check.

Files: `wrappers.dfy` (Option, Result), `type_symbols.dfy`, `type_names.dfy`,
`type_properties.dfy`, `odata_query.dfy`, `odata_properties.dfy`.

Two behaviours a reader might not expect:

- The client's `$top` always beats `DefaultPageSize`, even when it is larger.
  It does not win only when it is smaller (`ODataQueryProperties.ClientTopCanExceedDefault`).
- One unwrap strips exactly one `Task`/`Nullable` layer. A second unwrap is the
  identity only when the first result is not itself a wrapper
  (`TypeProperties.SecondUnwrapIsIdentityIffNoWrapperLeft`).

## Model

All `source` paths are relative to the repository root.

| member | source | states |
|---|---|---|
| `TypeSymbols.GetUnderlyingTypeSymbol` | BitTools/BitTools.Core/Extensions/ITypeSymbolExtensions.cs:15-25 | A Task/Nullable named type with one type argument yields that argument. With two or more it throws (`Single`). Every other symbol is a fixed point. The result is the input or lies strictly lower on the element spine. |
| `TypeProperties.SecondUnwrapIsIdentityIffNoWrapperLeft` | BitTools/BitTools.Core/Extensions/ITypeSymbolExtensions.cs:15-25 | After one unwrap, a second unwrap changes nothing exactly when no wrapper is left. |
| `TypeProperties.UnwrapOfSingleArgumentWrapper` | BitTools/BitTools.Core/Extensions/ITypeSymbolExtensions.cs:17-22 | `Task<X>` and `Nullable<X>` unwrap to X for every X. `Task<Task<X>>` does not unwrap to X. |
| `TypeSymbols.IsVoid` | BitTools/BitTools.Core/Extensions/ITypeSymbolExtensions.cs:28-41 | Unwrap failures propagate. Otherwise the type is void iff its unwrapped name is Void or Task, so `Task` and `Task<Task>` are void and `Task<Int32>` is not. |
| `TypeProperties.TaskVoidness` | BitTools/BitTools.Core/Extensions/ITypeSymbolExtensions.cs:33-40 | Non-generic Task is void. `Task<X>` is void iff X is named Void or Task, so `Task<Int32>` is not void. |
| `TypeSymbols.IsCollectionType` | BitTools/BitTools.Core/Extensions/ITypeSymbolExtensions.cs:43-51 | An unwrapped String is never a collection. Any other unwrapped type is one iff it is an array, is named IEnumerable, or implements IEnumerable. |
| `TypeProperties.ArraysAreCollections` | BitTools/BitTools.Core/Extensions/ITypeSymbolExtensions.cs:48-50 | Every array not named String is a collection, and its element type is the array's element. |
| `TypeProperties.EnumerableImplementersAreCollections` | BitTools/BitTools.Core/Extensions/ITypeSymbolExtensions.cs:48-50 | A non-wrapper implementing IEnumerable is a collection iff it is not named String. |
| `TypeSymbols.IsQueryableType` | BitTools/BitTools.Core/Extensions/ITypeSymbolExtensions.cs:53-61 | True iff the unwrapped type implements IQueryable; unwrap failures propagate. |
| `TypeProperties.UnwrapTransparency` | BitTools/BitTools.Core/Extensions/ITypeSymbolExtensions.cs:15-25 | A single Task/Nullable layer around a non-wrapper changes none of the unwrapping classifiers: void, collection, queryable, enum, element type, complex type and JavaScript default. |
| `TypeProperties.TypescriptNameUnwrapTransparency` | BitTools/BitTools.Core/Extensions/ITypeSymbolExtensions.cs:135 | A single Task/Nullable layer around a non-wrapper changes neither the source's TypeScript name nor the corrected one. |
| `TypeSymbols.IsNullable` | BitTools/BitTools.Core/Extensions/ITypeSymbolExtensions.cs:63-71 | True iff the type is not a value type or is named Nullable. The symbol is read without unwrapping. |
| `TypeProperties.NullableIsNullableUnlikeItsArgument` | BitTools/BitTools.Core/Extensions/ITypeSymbolExtensions.cs:68-70 | For every `Nullable<X>` over a value type X that is not itself Nullable, the wrapper is nullable and X is not, although the wrapper unwraps to X. |
| `TypeProperties.NullableDoesNotUnwrap` | BitTools/BitTools.Core/Extensions/ITypeSymbolExtensions.cs:68-70 | `Nullable<Int32>` is nullable although it unwraps to Int32, which is not. A generic reference type is nullable. |
| `TypeSymbols.GetElementType` | BitTools/BitTools.Core/Extensions/ITypeSymbolExtensions.cs:228-245 | Unwrap failures propagate, and NotACollectionType is thrown for non-collections. An array gives its element and a single type argument gives itself. Two or more type arguments throw MoreThanOneElement. With no type arguments, or any other shape, the result is the unwrapped type itself. |
| `TypeProperties.ElementTypeDefinedIffCollection` | BitTools/BitTools.Core/Extensions/ITypeSymbolExtensions.cs:233-244 | The element type exists iff the unwrapped type is a collection that does not carry two or more type arguments. |
| `TypeProperties.UntypedCollectionIsItsOwnElement` | BitTools/BitTools.Core/Extensions/ITypeSymbolExtensions.cs:241-244 | A collection that is not a wrapper, not an array and carries no type arguments is its own element type. This covers named types without arguments, type parameters and other shapes. |
| `TypeSymbols.IsEnum` | BitTools/BitTools.Core/Extensions/ITypeSymbolExtensions.cs:247-253 | True iff the unwrapped type's base type is named Enum. |
| `TypeSymbols.GetUnderlyingComplexType` | BitTools/BitTools.Core/Extensions/ITypeSymbolExtensions.cs:176-189 | Gives the unwrapped type, or its element type when that type is a collection. Failures of the unwrap and of the collection test propagate with their error. |
| `TypeSymbols.IsComplexType` | BitTools/BitTools.Core/Extensions/ITypeSymbolExtensions.cs:191-199 | True iff the underlying complex type carries ComplexTypeAttribute. |
| `TypeProperties.ComplexTypeOfElement` | BitTools/BitTools.Core/Extensions/ITypeSymbolExtensions.cs:181-198 | `List<C>` is complex exactly when C is, for a C that is no collection. Both look the attribute up on C. |
| `TypeProperties.NullableEnumIsEnum` | BitTools/BitTools.Core/Extensions/ITypeSymbolExtensions.cs:247-253 | `Nullable<E>` is an enum type when E is, whatever the wrapper's own base type. |
| `TypeSymbols.InterfacesContainDto` | BitTools/BitTools.Core/Extensions/ITypeSymbolExtensions.cs:212-226 | The early-exit search holds iff some listed interface is IDto or has IDto found among its own interfaces. Its meaning as closure membership is `InterfacesContainDtoIffInClosure`. |
| `TypeSymbols.InterfacesContainDtoIffInClosure` | BitTools/BitTools.Core/Extensions/ITypeSymbolExtensions.cs:212-226 | The depth-first, early-exit search over interfaces finds IDto exactly when IDto is in the transitive interface closure. |
| `TypeSymbols.IsDto` | BitTools/BitTools.Core/Extensions/ITypeSymbolExtensions.cs:201-210 | A type parameter is a DTO iff some constraint type is one. Any other type is a DTO iff it is a class with IDto in its transitive interface closure. |
| `TypeProperties.NonClassesAreNotDtos` | BitTools/BitTools.Core/Extensions/ITypeSymbolExtensions.cs:209 | A struct or interface is never a DTO, whatever it implements. |
| `TypeProperties.IndirectIDtoMakesDto` | BitTools/BitTools.Core/Extensions/ITypeSymbolExtensions.cs:212-226 | IDto reached through an intermediate interface makes a class a DTO. |
| `TypeProperties.TypeParameterConstrainedToDto` | BitTools/BitTools.Core/Extensions/ITypeSymbolExtensions.cs:206-207 | A type parameter with a DTO constraint is a DTO. |
| `TypeNames.IsQueryableOrCollection` | BitTools/BitTools.Core/Extensions/ITypeSymbolExtensions.cs:114 | True iff the type is a queryable or a collection. The collection test runs only when the queryable test is false. |
| `TypeNames.GetEdmTypeName` | BitTools/BitTools.Core/Extensions/ITypeSymbolExtensions.cs:85-118 | The nine scalars map to `Edm.` followed by the CLR name. Other queryables and collections map to `Array` or `$data.Queryable`, following the flag. Everything else maps to the display string. Unwrap failures propagate, including the second unwrap inside the collection test (`Task<Nullable<A, B>>` throws). |
| `TypeNames.GetEdmElementTypeName` | BitTools/BitTools.Core/Extensions/ITypeSymbolExtensions.cs:75-83 | The element type's EDM name with the array flag set; element-type failures propagate. |
| `TypeNames.TypescriptName` | BitTools/BitTools.Core/Extensions/ITypeSymbolExtensions.cs:130-163 | Scalars map through the TypeScript scalar table, and other non-collections map to their display string. A queryable or collection maps to the flag's wrapper around the element's name. The element is mapped with the flag set. When the element is the unwrapped type itself, the mapping diverges if no self-element answer is given, and wraps that answer otherwise. Failures become Thrown. |
| `TypeNames.GetTypescriptTypeName` | BitTools/BitTools.Core/Extensions/ITypeSymbolExtensions.cs:130-163 | The source's mapping. Int16/Int32 map to number. String, Int64, Guid, Decimal and Single map to string. DateTimeOffset maps to Date and Boolean to boolean. Other non-collections map to their display string. A collection maps to `Array<e>` or `$data.Queryable<e>`, where e is the element's name mapped with the flag set. It diverges when the element is the unwrapped type itself, or when the element's own mapping diverges. An exception in the element's mapping, the unwrap or the collection test propagates. |
| `TypeNames.GetTypeScriptElementTypeName` | BitTools/BitTools.Core/Extensions/ITypeSymbolExtensions.cs:120-128 | The element type's TypeScript name with the array flag set; element-type failures propagate. |
| `TypeNames.GetTypescriptTypeNameTerminating` | BitTools/BitTools.Core/Extensions/ITypeSymbolExtensions.cs:159-160 | The corrected mapping never diverges and equals the source mapping wherever that terminates. |
| `TypeNames.SelfElementOnlyMattersOnDivergence` | BitTools/BitTools.Core/Extensions/ITypeSymbolExtensions.cs:159-160 | Where the source mapping terminates, the answer chosen for a self-element never changes the result. |
| `TypeNames.GetJavaScriptDefaultValue` | BitTools/BitTools.Core/Extensions/ITypeSymbolExtensions.cs:165-174 | `[]` iff the type is a collection, `null` iff it is not; failures propagate. |
| `TypeProperties.TsNameExtendsEdmName` | BitTools/BitTools.Core/Extensions/ITypeSymbolExtensions.cs:85-162 | For every non-scalar type that maps to a TypeScript name, the EDM name is a prefix of that name. |
| `TypeProperties.ScalarNamesAgree` | BitTools/BitTools.Core/Extensions/ITypeSymbolExtensions.cs:94-156 | Among the scalars, the TypeScript name is number exactly when the EDM name is Edm.Int16 or Edm.Int32. |
| `TypeProperties.NestedListMapping` | BitTools/BitTools.Core/Extensions/ITypeSymbolExtensions.cs:159-160 | `List<List<Int32>>` with the flag off maps to `$data.Queryable<Array<number>>`: the element is always mapped with arrays. |
| `TypeProperties.UntypedCollectionsDiverge` | BitTools/BitTools.Core/Extensions/ITypeSymbolExtensions.cs:159-160 | Every non-scalar collection that is its own element type sends the source mapping into endless recursion, as in the row above. This holds with either flag, directly or behind one wrapper. |
| `TypeProperties.NestedUntypedDiverges` | BitTools/BitTools.Core/Extensions/ITypeSymbolExtensions.cs:159-160 | `List<ArrayList>` is not its own element type, yet the source mapping diverges on it because ArrayList's mapping does. |
| `TypeProperties.NestedUntypedCorrected` | BitTools/BitTools.Core/Extensions/ITypeSymbolExtensions.cs:159-160 | The corrected mapping names `List<ArrayList>` `$data.Queryable<Array<any>>`. |
| `TypeProperties.ArrayListDiverges` | BitTools/BitTools.Core/Extensions/ITypeSymbolExtensions.cs:241-244 | The source mapping diverges on a non-generic ArrayList. The corrected mapping gives `$data.Queryable<any>`, with or without a Task layer around it. |
| `ODataQuery.SetDefaultPageSize` | Foundation/Server/Foundation.Api/Middlewares/WebApi/OData/ActionFilters/ODataEnableQueryAttribute.cs:23-32 | The default is always recorded. A value is copied to PageSize; null leaves PageSize unchanged. |
| `ODataQuery.ClearingDefaultKeepsPageSize` | Foundation/Server/Foundation.Api/Middlewares/WebApi/OData/ActionFilters/ODataEnableQueryAttribute.cs:26-31 | Setting a default and then clearing it leaves PageSize at the old default. |
| `ODataQuery.Take` | Foundation/Server/Foundation.Api/Middlewares/WebApi/OData/ActionFilters/ODataEnableQueryAttribute.cs:158 | The result is the prefix of length min(n, \|s\|), or empty when n <= 0. |
| `ODataQuery.TakeIdempotent` | Foundation/Server/Foundation.Api/Middlewares/WebApi/OData/ActionFilters/ODataEnableQueryAttribute.cs:109-117 | Taking the same page twice equals taking it once. |
| `ODataQuery.Where` | Foundation/Server/Foundation.Api/Middlewares/WebApi/OData/ActionFilters/ODataEnableQueryAttribute.cs:93-96 | Only satisfying input elements appear, and every satisfying element appears. If all elements satisfy, the input comes back unchanged; if none do, the result is empty. |
| `ODataQuery.WhereMultiset` | Foundation/Server/Foundation.Api/Middlewares/WebApi/OData/ActionFilters/ODataEnableQueryAttribute.cs:93-96 | Every satisfying element occurs as often as in the input, and no other element occurs. |
| `ODataQuery.WhereOfConcat` | Foundation/Server/Foundation.Api/Middlewares/WebApi/OData/ActionFilters/ODataEnableQueryAttribute.cs:95 | Filtering distributes over concatenation. With the two extreme cases of `Where`, this fixes the result's order to the input order. |
| `ODataQuery.Filtered` | Foundation/Server/Foundation.Api/Middlewares/WebApi/OData/ActionFilters/ODataEnableQueryAttribute.cs:93-96 | With no `$filter` the query is unchanged. Otherwise it is LINQ's Where over the query, so order and multiplicity follow `Where`, `WhereMultiset` and `WhereOfConcat`. |
| `ODataQuery.Paged` | Foundation/Server/Foundation.Api/Middlewares/WebApi/OData/ActionFilters/ODataEnableQueryAttribute.cs:156-159 | The query is truncated to the page size if there is one and left whole otherwise. |
| `ODataQuery.EffectivePageSize` | Foundation/Server/Foundation.Api/Middlewares/WebApi/OData/ActionFilters/ODataEnableQueryAttribute.cs:80-89 | `$top` if present, else DefaultPageSize. There is no page size iff both are absent. |
| `ODataQuery.FindAsyncQueryableExecuter` | Foundation/Server/Foundation.Api/Middlewares/WebApi/OData/ActionFilters/ODataEnableQueryAttribute.cs:130-141 | Returns the index of the first executor that supports the query, or none when no executor does. |
| `ODataQuery.Enumerate` | Foundation/Server/Foundation.Api/Middlewares/WebApi/OData/ActionFilters/ODataEnableQueryAttribute.cs:161 | Materialising yields the query's elements in order. |
| `ODataQuery.ToList` | Foundation/Server/Foundation.Api/Middlewares/WebApi/OData/ActionFilters/ODataEnableQueryAttribute.cs:151-162 | With page size n, the result is the first min(n, \|query\|) elements in order. Without one, it is the whole query. |
| `ODataQuery.ToListAsync` | Foundation/Server/Foundation.Api/Middlewares/WebApi/OData/ActionFilters/ODataEnableQueryAttribute.cs:176-191 | The same page as ToList, materialised through the executor. |
| `ODataQuery.GetCount` | Foundation/Server/Foundation.Api/Middlewares/WebApi/OData/ActionFilters/ODataEnableQueryAttribute.cs:143-149 | The count equals the query's length. |
| `ODataQuery.Process` | Foundation/Server/Foundation.Api/Middlewares/WebApi/OData/ActionFilters/ODataEnableQueryAttribute.cs:34-128 | Non-success or non-ObjectContent responses are untouched. Only values whose element type can be derived are materialised, and for a queryable that element type must be a reference type. Under both count rules, `$count` with a page size publishes the filtered length, and the list fits the page. |
| `ODataQuery.OnActionExecutedAsync` | Foundation/Server/Foundation.Api/Middlewares/WebApi/OData/ActionFilters/ODataEnableQueryAttribute.cs:34-128 | Skip, NoContent, exception and validation outcomes, as listed below. The list is the prefix, of page length, of the shaped filtered query. The executor choice and both count rules are stated. |
| `ODataQuery.OnActionExecutedAsyncCountingFiltered` | Foundation/Server/Foundation.Api/Middlewares/WebApi/OData/ActionFilters/ODataEnableQueryAttribute.cs:119-124 | The corrected filter always publishes the filtered length when `$count` is requested. Otherwise its outcome equals the source's. |
| `ODataQueryProperties.ClientTopCanExceedDefault` | Foundation/Server/Foundation.Api/Middlewares/WebApi/OData/ActionFilters/ODataEnableQueryAttribute.cs:84-85 | A client `$top` larger than the default still sets the page length. |
| `ODataQueryProperties.DefaultPageSizeWhenNoTop` | Foundation/Server/Foundation.Api/Middlewares/WebApi/OData/ActionFilters/ODataEnableQueryAttribute.cs:86-87 | Without `$top`, the page is the first DefaultPageSize elements. |
| `ODataQueryProperties.FilterBeforeTruncation` | Foundation/Server/Foundation.Api/Middlewares/WebApi/OData/ActionFilters/ODataEnableQueryAttribute.cs:93-117 | The page holds the first matching elements, and the count is taken over the filtered query. |
| `ODataQueryProperties.TopAppliedOnce` | Foundation/Server/Foundation.Api/Middlewares/WebApi/OData/ActionFilters/ODataEnableQueryAttribute.cs:91 | A `$top` already applied by the remaining options is not narrowed again at materialisation. |
| `ODataQueryProperties.SynchronousWithoutSupportingExecutor` | Foundation/Server/Foundation.Api/Middlewares/WebApi/OData/ActionFilters/ODataEnableQueryAttribute.cs:57-65 | A non-queryable value, or one that no executor supports, is materialised synchronously. |
| `ODataQueryProperties.FirstSupportingExecutorIsUsed` | Foundation/Server/Foundation.Api/Middlewares/WebApi/OData/ActionFilters/ODataEnableQueryAttribute.cs:114-115 | A queryable value goes to the first executor that supports it. |
| `ODataQueryProperties.SkipLowersUnpagedCount` | Foundation/Server/Foundation.Api/Middlewares/WebApi/OData/ActionFilters/ODataEnableQueryAttribute.cs:119-124 | Ten elements with `$skip=5` publish a count of 5 in the source and 10 in the corrected filter. |
| `ODataQueryProperties.ValueTypeQueryableThrows` | Foundation/Server/Foundation.Api/Middlewares/WebApi/OData/ActionFilters/ODataEnableQueryAttribute.cs:57-65 | A list of integers is materialised when the options are valid. A queryable of integers throws at the executor lookup, whatever the options and executors. |
| `ODataQueryProperties.NonGenericCollectionThrows` | Foundation/Server/Foundation.Api/Middlewares/WebApi/OData/ActionFilters/ODataEnableQueryAttribute.cs:54 | A value whose runtime type has no generic argument makes a successful response throw. A failing response is untouched. |

The skip, NoContent, exception and validation outcomes stated by `OnActionExecutedAsync`:

- Failure status or non-ObjectContent: untouched.
- Null value: NoContent.
- String or non-enumerable value: untouched.
- A runtime type that is neither an array nor generic: Thrown(ElementTypeMissing), as `First` on line 54 throws. This happens before validation.
- A first generic argument that is not the element type: Thrown(GenericArgumentRejected). The reflection call at line 60 or 64 rejects the value.
- A queryable of a value type: Thrown(GenericArgumentRejected), since the lookup at line 60 requires a reference type (line 131).
- Invalid options on any other enumerable value: a validation failure.

## Left out

- Null arguments (`ArgumentNullException` in every member): datatype values are never null.
- Roslyn's own semantics: the transitive interface list, display-string formatting and attribute-class resolution are taken as given fields of the symbol.
- `GetUnderlyingTypeSymbol`'s cast to a named type: a Task/Nullable that is not a named type has no type arguments in the model and is returned unchanged, as in the source.
- `ToQueryable`: `AsQueryable` changes the static type only, so a non-queryable sequence flows on unchanged.
- `GetCountAsync`: it returns the executor's count, which the model takes to equal the query's length, as `GetCount` does.
- Reflection dispatch (`MakeGenericMethod`/`Invoke`), `async`/`await`, the `CancellationToken` and the OWIN dependency resolver. Calls are direct, and the resolved executors are a given sequence.
- The element type derived at line 54 is reduced to three cases: derived (reference or value type), no generic argument, or a first generic argument that is not the element type. The model does not represent the type itself.
- `ODataQuery.OnActionExecutedAsync`: the re-derivation of the element type after `$select`/`$expand` (lines 111-112) is not modelled, nor the exceptions it can raise. The shaped value's type comes from the OData library, and `applyRest` abstracts it.
- OData library internals: query-option parsing, `ValidateQuery` (reduced to a `valid` flag), the `$filter` semantics (reduced to a predicate), and `ApplyTo` for the other options (an abstract `applyRest`). The settings that `ApplyTo` receives are also left out, as is the `ODataQueryContext` built at line 68, which looks the element type up in the EDM model and throws when the model lacks it.
- Executors are reduced to their capability check. Their `ToListAsync` and `LongCountAsync` are taken to materialise and count faithfully. The Entity Framework Core executor, whose check always returns false, is not part of this model.
- `SetDefaultPageSize`: the OData library rejects a non-positive page size, and the model does not include that library check. A non-positive page size is modelled as LINQ's `Take` treats it, giving an empty page.
- The empty `OnActionExecuted` override (lines 201-204); it has no behaviour.
- The Angular application bootstrapper, the grid edit-button directive and the test server. They are UI wiring and host startup, with no standalone decision logic.

## Findings

| source | as written | input that shows it | evidently intended | confidence | as-written member | corrected member |
|---|---|---|---|---|---|---|
| BitTools/BitTools.Core/Extensions/ITypeSymbolExtensions.cs:159-160 | A collection without type arguments is its own element type (lines 241-244). The TypeScript mapping then calls itself on that unwrapped type forever. | A non-generic `ArrayList` implementing `IEnumerable` (`TypeProperties.ArrayListDiverges`) | A finite name for every type; here the element type is unknown, rendered as `any` | medium, not executed | `TypeNames.GetTypescriptTypeName` | `TypeNames.GetTypescriptTypeNameTerminating` |
| Foundation/Server/Foundation.Api/Middlewares/WebApi/OData/ActionFilters/ODataEnableQueryAttribute.cs:119-124 | With `$count` and no page size, the published count is the list length after `$skip` has been applied | Ten elements, `$skip=5`, `$count=true`, no `$top`, no DefaultPageSize: count 5 (`ODataQueryProperties.SkipLowersUnpagedCount`) | The count of the filtered query (10). The paged branch (lines 98-107) and OData's `$count` both give that | medium, not executed | `ODataQuery.OnActionExecutedAsync` | `ODataQuery.OnActionExecutedAsyncCountingFiltered` |

=== FILE: odata_properties.dfy ===
/** Properties of the action filter's decision flow over several calls or
    concrete requests: page-size precedence, filter-before-paging, single
    truncation, executor choice and the two ways the total count is taken. */
module ODataQueryProperties {
  import opened Wrappers
  import opened ODataQuery

  function Identity<T>(s: seq<T>): seq<T> {
    s
  }

  /** A successful ObjectContent response carrying a sequence of a generic
      type whose element type is a reference type. */
  function Ok<T>(items: seq<T>, queryable: bool): Response<T> {
    Response(true, ObjectContent(Sequence(items, queryable, Derived(true))))
  }

  /** The client's `$top` beats the server default even when it is larger:
      with enough matching elements the page holds `$top` of them. */
  lemma {:induction false} ClientTopCanExceedDefault<T>(items: seq<T>, top: int, defaultPageSize: int, executors: seq<Executor<T>>)
    requires 0 <= defaultPageSize < top <= |items|
    ensures var r := OnActionExecutedAsync(QueryAttribute(None, Some(defaultPageSize)), Ok(items, false),
                                      QueryOptions(true, Some(top), None, None), Identity, executors);
      r.Materialized? && |r.list| == top && |r.list| > defaultPageSize
  {
    var r := OnActionExecutedAsync(QueryAttribute(None, Some(defaultPageSize)), Ok(items, false),
                              QueryOptions(true, Some(top), None, None), Identity, executors);
    assert Identity(Filtered(items, None)) == items;
    assert EffectivePageSize(Some(top), Some(defaultPageSize)) == Some(top);
  }

  /** The server default applies only when the client gives no `$top`. */
  lemma {:induction false} DefaultPageSizeWhenNoTop<T>(items: seq<T>, defaultPageSize: int, executors: seq<Executor<T>>)
    requires 0 <= defaultPageSize <= |items|
    ensures var r := OnActionExecutedAsync(QueryAttribute(None, Some(defaultPageSize)), Ok(items, true),
                                      QueryOptions(true, None, None, None), Identity, executors);
      r.Materialized? && r.list == items[..defaultPageSize]
  {
  }

  /** The filter runs before the page is cut: the page is the first n
      matching elements, not the matching ones among the first n. */
  lemma FilterBeforeTruncation()
    ensures var r := OnActionExecutedAsync(QueryAttribute(None, None), Ok([1, 2, 3, 4], false),
                                      QueryOptions(true, Some(2), Some(true), Some((x: int) => x % 2 == 0)), Identity, []);
      r == Materialized([2, 4], Synchronous, Some(2))
  {
    var p := (x: int) => x % 2 == 0;
    EvensOfOneToFour(p);
    assert EffectivePageSize(Some(2), None) == Some(2);
    assert Paged(Identity(Filtered([1, 2, 3, 4], Some(p))), Some(2)) == [2, 4];
  }

  /** The even elements of [1, 2, 3, 4], in order. */
  lemma EvensOfOneToFour(p: int -> bool)
    requires forall x :: p(x) == (x % 2 == 0)
    ensures Filtered([1, 2, 3, 4], Some(p)) == [2, 4]
  {
    assert [1, 2, 3, 4][1..] == [2, 3, 4];
    assert [2, 3, 4][1..] == [3, 4];
    assert [3, 4][1..] == [4];
    assert [4][1..] == [];
    assert Where([4], p) == [4];
    assert Where([3, 4], p) == [4];
    assert Where([2, 3, 4], p) == [2, 4];
  }

  /** A `$top` that the remaining query options already applied is not
      narrowed again: truncation takes effect once. */
  lemma {:induction false} TopAppliedOnce<T>(items: seq<T>, top: int, executors: seq<Executor<T>>)
    ensures var r := OnActionExecutedAsync(QueryAttribute(None, None), Ok(items, false),
                                      QueryOptions(true, Some(top), None, None), s => Take(s, top), executors);
      r.Materialized? && r.list == Take(items, top)
  {
    TakeIdempotent(items, top);
  }

  /** When no executor accepts the query, or the value is not a queryable,
      the synchronous path is taken whatever executors are registered. */
  lemma SynchronousWithoutSupportingExecutor<T, U>(attribute: QueryAttribute, items: seq<T>, queryable: bool,
                                                      options: QueryOptions<T>, applyRest: seq<T> -> seq<U>, executors: seq<Executor<T>>)
    requires options.valid
    requires !queryable || forall j :: 0 <= j < |executors| ==> !executors[j].supportsAsyncExecution(items)
    ensures var r := OnActionExecutedAsync(attribute, Ok(items, queryable), options, applyRest, executors);
      r.Materialized? && r.path == Synchronous
  {
  }

  /** A queryable value goes to the first executor that accepts it. */
  lemma FirstSupportingExecutorIsUsed<T, U>(attribute: QueryAttribute, items: seq<T>, options: QueryOptions<T>,
                                                applyRest: seq<T> -> seq<U>, executors: seq<Executor<T>>, i: nat)
    requires options.valid
    requires i < |executors| && executors[i].supportsAsyncExecution(items)
    requires forall j :: 0 <= j < i ==> !executors[j].supportsAsyncExecution(items)
    ensures var r := OnActionExecutedAsync(attribute, Ok(items, true), options, applyRest, executors);
      r.Materialized? && r.path == Asynchronous(i)
  {
  }

  /** Without a page size, the total count is the length of the list the
      remaining options produced, so `$skip` lowers it: ten elements and
      `$skip=5` publish five. Counting the filtered query instead publishes ten. */
  lemma SkipLowersUnpagedCount()
    ensures var items := [0, 1, 2, 3, 4, 5, 6, 7, 8, 9];
      var skip5 := (s: seq<int>) => if |s| <= 5 then [] else s[5..];
      var options := QueryOptions(true, None, Some(true), None);
      && OnActionExecutedAsync(QueryAttribute(None, None), Ok(items, false), options, skip5, []).totalCount == Some(5)
      && OnActionExecutedAsyncCountingFiltered(QueryAttribute(None, None), Ok(items, false), options, skip5, []).totalCount == Some(10)
  {
  }

  /** Value-type elements are accepted only on the synchronous path: a list
      of integers is materialised, while a queryable of integers throws at
      the executor lookup, even before the options are validated and even
      when no executor is registered. */
  lemma ValueTypeQueryableThrows<U>(items: seq<int>, options: QueryOptions<int>, applyRest: seq<int> -> seq<U>,
                                    executors: seq<Executor<int>>)
    ensures var asList := Response(true, ObjectContent(Sequence(items, false, Derived(false))));
      OnActionExecutedAsync(QueryAttribute(None, None), asList, options, applyRest, executors).Materialized? <==> options.valid
    ensures var asQueryable := Response(true, ObjectContent(Sequence(items, true, Derived(false))));
      OnActionExecutedAsync(QueryAttribute(None, None), asQueryable, options, applyRest, executors) == Thrown(GenericArgumentRejected)
  {
  }

  /** A collection whose runtime type has no generic argument (a class
      deriving from a generic list, say) makes the filter throw, whatever
      the options and the executors; a failing response is still untouched. */
  lemma NonGenericCollectionThrows<T, U>(attribute: QueryAttribute, items: seq<T>, queryable: bool, options: QueryOptions<T>,
                                         applyRest: seq<T> -> seq<U>, executors: seq<Executor<T>>)
    ensures OnActionExecutedAsync(attribute, Response(true, ObjectContent(Sequence(items, queryable, NoGenericArgument))),
                                  options, applyRest, executors) == Thrown(ElementTypeMissing)
    ensures OnActionExecutedAsync(attribute, Response(false, ObjectContent(Sequence(items, queryable, NoGenericArgument))),
                                  options, applyRest, executors) == Untouched
  {
  }
}

=== FILE: odata_query.dfy ===
/** The decisions the OData query action filter takes on a controller's
    response (Foundation/Server/Foundation.Api/Middlewares/WebApi/OData/
    ActionFilters/ODataEnableQueryAttribute.cs): which responses it leaves
    alone, the page size it settles on, filtering before counting before
    shaping before paging, the executor it picks, how it materialises the
    query and how it publishes the total count.

    The query is a sequence of elements. The OData library's collaborators
    are parameters: the `$filter` predicate, `applyRest` for every other
    query option (`$orderby`, `$select`/`$expand`, `$skip`, `$top`), and the
    executors' `supportsAsyncExecution` capability checks. */
module ODataQuery {
  import opened Wrappers

  // ---- configuration -------------------------------------------------------

  /** The attribute's paging configuration: the base attribute's PageSize
      and the server default page size. */
  datatype QueryAttribute = QueryAttribute(pageSize: Option<int>, defaultPageSize: Option<int>)

  /** The DefaultPageSize setter: it always records the value, and a non-null
      value is copied to PageSize as well; null leaves PageSize alone. */
  function SetDefaultPageSize(a: QueryAttribute, value: Option<int>): (r: QueryAttribute)
    ensures r.defaultPageSize == value
    ensures value.Some? ==> r.pageSize == value
    ensures value.None? ==> r.pageSize == a.pageSize
  {
    QueryAttribute(if value.Some? then value else a.pageSize, value)
  }

  /** Clearing the default after setting it keeps the copied PageSize: the
      two settings diverge from then on. */
  lemma ClearingDefaultKeepsPageSize(a: QueryAttribute, n: int)
    ensures var cleared := SetDefaultPageSize(SetDefaultPageSize(a, Some(n)), None);
      cleared.defaultPageSize == None && cleared.pageSize == Some(n)
  {
  }

  // ---- the request ---------------------------------------------------------

  /** How the element type is read off an enumerable value's runtime type:
      an array's element type, else the first generic argument.
      - `Derived`: that type is the element type; `isReferenceType` says
        whether it is a reference type.
      - `NoGenericArgument`: the runtime type is neither an array nor
        generic (a non-generic collection, or a class deriving from a
        generic one), so taking the first generic argument throws.
      - `MismatchedGenericArgument`: the first generic argument is not the
        element type (a dictionary, say), so the value cannot be passed to
        the generic helper instantiated with it. */
  datatype ElementType = Derived(isReferenceType: bool) | NoGenericArgument | MismatchedGenericArgument

  /** The value an action returned, as the filter classifies it. */
  datatype Payload<T> =
    | NullValue
    | StringValue
    | NonEnumerable                             // any value that is not IEnumerable
    | Sequence(items: seq<T>, queryable: bool, elementType: ElementType)
      // an IEnumerable other than string; queryable when IQueryable

  /** The response body: an ObjectContent carrying a value, or anything else
      (no content, a stream, a string body, ...). */
  datatype Content<T> = OtherContent | ObjectContent(value: Payload<T>)

  datatype Response<T> = Response(isSuccessStatusCode: bool, content: Content<T>)

  /** The parsed query options: whether they pass validation, `$top`,
      `$count` and the `$filter` predicate. */
  datatype QueryOptions<!T> = QueryOptions(valid: bool, top: Option<int>, count: Option<bool>, filter: Option<T -> bool>)

  /** A registered asynchronous query executor, reduced to its capability check. */
  datatype Executor<!T> = Executor(supportsAsyncExecution: seq<T> -> bool)

  /** How the query was materialised: synchronously, or by the executor at an index. */
  datatype Path = Synchronous | Asynchronous(executor: nat)

  /** The exceptions the filter itself throws on an enumerable value:
      `Enumerable.First` on an empty generic-argument list, and the
      reflection call rejecting its generic argument or its argument value. */
  datatype FilterError = ElementTypeMissing | GenericArgumentRejected

  /** The enumerable values the filter can process without throwing: the
      element type is derived, and for a queryable it is a reference type,
      as the executor lookup demands of its type argument. */
  predicate Materialisable<T>(p: Payload<T>) {
    p.Sequence? && p.elementType.Derived? && (!p.queryable || p.elementType.isReferenceType)
  }

  /** What the filter did to the response. `Materialized` replaces the body
      by `list` and, when `totalCount` is present, publishes it as the
      request's total-count callback. */
  datatype Outcome<U> =
    | Untouched
    | NoContent
    | ValidationFailed
    | Thrown(error: FilterError)
    | Materialized(list: seq<U>, path: Path, totalCount: Option<int>)

  // ---- sequence operations -------------------------------------------------

  function Min(a: int, b: int): int {
    if a <= b then a else b
  }

  /** The most elements a page of size n can hold. */
  function PageCapacity(n: int): nat {
    if n <= 0 then 0 else n
  }

  /** LINQ's Take: at most n leading elements, none for n <= 0. */
  function Take<T>(s: seq<T>, n: int): (r: seq<T>)
    ensures |r| == (if n <= 0 then 0 else Min(n, |s|))
    ensures r == s[..|r|]
  {
    if n <= 0 then [] else if n < |s| then s[..n] else s
  }

  /** LINQ's Where: the elements satisfying the predicate, in their order.
      Each satisfying element keeps its multiplicity and the rest vanish
      (`WhereMultiset`); the order is fixed by `WhereOfConcat` together with
      the two extreme cases below. */
  function Where<T(==)>(s: seq<T>, p: T -> bool): (r: seq<T>)
    ensures |r| <= |s|
    ensures forall i :: 0 <= i < |r| ==> r[i] in s && p(r[i])
    ensures forall i :: 0 <= i < |s| && p(s[i]) ==> s[i] in r
    ensures (forall i :: 0 <= i < |s| ==> p(s[i])) ==> r == s
    ensures (forall i :: 0 <= i < |s| ==> !p(s[i])) ==> r == []
  {
    if |s| == 0 then []
    else
      if p(s[0]) then [s[0]] + Where(s[1..], p)
      else Where(s[1..], p)
  }

  /** Where keeps every satisfying element exactly as often as it occurs,
      and drops every other element. */
  lemma {:induction false} WhereMultiset<T>(s: seq<T>, p: T -> bool)
    ensures forall x :: multiset(Where(s, p))[x] == if p(x) then multiset(s)[x] else 0
    decreases |s|
  {
    if |s| > 0 {
      WhereMultiset(s[1..], p);
      assert s == [s[0]] + s[1..];
    }
  }

  /** Where distributes over concatenation: it keeps the relative order. */
  lemma {:induction false} WhereOfConcat<T>(a: seq<T>, b: seq<T>, p: T -> bool)
    ensures Where(a + b, p) == Where(a, p) + Where(b, p)
    decreases |a|
  {
    if |a| > 0 {
      assert (a + b)[0] == a[0];
      assert (a + b)[1..] == a[1..] + b;
      WhereOfConcat(a[1..], b, p);
      if p(a[0]) {
        calc {
          Where(a + b, p);
          [a[0]] + Where(a[1..] + b, p);
          [a[0]] + (Where(a[1..], p) + Where(b, p));
          ([a[0]] + Where(a[1..], p)) + Where(b, p);
        }
      }
    } else {
      assert a + b == b;
    }
  }

  /** Applying the filter when there is one. */
  function Filtered<T(==)>(items: seq<T>, filter: Option<T -> bool>): (r: seq<T>)
    ensures filter.None? ==> r == items
    ensures filter.Some? ==> r == Where(items, filter.value)
    ensures filter.Some? ==> forall i :: 0 <= i < |r| ==> r[i] in items && filter.value(r[i])
    ensures filter.Some? ==> forall i :: 0 <= i < |items| && filter.value(items[i]) ==> items[i] in r
  {
    if filter.Some? then Where(items, filter.value) else items
  }

  /** Truncation to the page size when there is one. */
  function Paged<T>(s: seq<T>, pageSize: Option<int>): (r: seq<T>)
    ensures pageSize.None? ==> r == s
    ensures pageSize.Some? ==> r == Take(s, pageSize.value)
  {
    if pageSize.Some? then Take(s, pageSize.value) else s
  }

  /** Taking the same page twice is taking it once: a `$top` already applied
      by the remaining query options is not narrowed again by the page size. */
  lemma TakeIdempotent<T>(s: seq<T>, n: int)
    ensures Take(Take(s, n), n) == Take(s, n)
  {
  }

  // ---- the filter's building blocks ------------------------------------------

  /** The client's `$top` wins, then the server default, else no paging. */
  function EffectivePageSize(top: Option<int>, defaultPageSize: Option<int>): (r: Option<int>)
    ensures r.None? <==> top.None? && defaultPageSize.None?
    ensures top.Some? ==> r == top
    ensures top.None? ==> r == defaultPageSize
  {
    if top.Some? then top
    else if defaultPageSize.Some? then defaultPageSize
    else None
  }

  /** The first executor whose capability check accepts the query, if any. */
  function FindAsyncQueryableExecuter<T>(query: seq<T>, executors: seq<Executor<T>>): (r: Option<nat>)
    ensures r.Some? ==> r.value < |executors| && executors[r.value].supportsAsyncExecution(query)
    ensures r.Some? ==> forall j :: 0 <= j < r.value ==> !executors[j].supportsAsyncExecution(query)
    ensures r.None? ==> forall j :: 0 <= j < |executors| ==> !executors[j].supportsAsyncExecution(query)
  {
    if |executors| == 0 then None
    else if executors[0].supportsAsyncExecution(query) then Some(0)
    else
      match FindAsyncQueryableExecuter(query, executors[1..])
      case None => None
      case Some(i) => Some(i + 1)
  }

  /** Materialising a query: enumerating it into a list, element by element. */
  method Enumerate<T>(query: seq<T>) returns (list: seq<T>)
    ensures |list| == |query|
    ensures forall i :: 0 <= i < |query| ==> list[i] == query[i]
  {
    list := [];
    var i := 0;
    while i < |query|
      invariant 0 <= i <= |query|
      invariant |list| == i
      invariant forall k :: 0 <= k < i ==> list[k] == query[k]
    {
      list := list + [query[i]];
      i := i + 1;
    }
  }

  /** ToList: the first min(n, |query|) elements in order for page size n,
      the whole query without one. */
  method ToList<T>(query: seq<T>, pageSize: Option<int>) returns (list: seq<T>)
    ensures pageSize.None? ==> list == query
    ensures pageSize.Some? ==> |list| == (if pageSize.value <= 0 then 0 else Min(pageSize.value, |query|))
    ensures list == query[..|list|]
  {
    var q := query;
    if pageSize.Some? {
      q := Take(q, pageSize.value);
    }
    list := Enumerate(q);
  }

  /** ToListAsync: the same page, materialised by the chosen executor. */
  method ToListAsync<T>(query: seq<T>, executor: Executor<T>, pageSize: Option<int>) returns (list: seq<T>)
    ensures list == Paged(query, pageSize)
  {
    var q := query;
    if pageSize.Some? {
      q := Take(q, pageSize.value);
    }
    list := Enumerate(q);
  }

  /** GetCount: the number of elements the query yields. */
  method GetCount<T>(query: seq<T>) returns (count: int)
    ensures count == |query|
  {
    count := 0;
    var rest := query;
    while rest != []
      invariant count + |rest| == |query|
    {
      count := count + 1;
      rest := rest[1..];
    }
  }

  // ---- the decision flow -----------------------------------------------------

  /** When the total count is taken: `CountAfterShapingWhenUnpaged` is the
      source's rule (without a page size the materialised list's length is
      published); `CountBeforeShaping` always counts the filtered query. */
  datatype CountRule = CountAfterShapingWhenUnpaged | CountBeforeShaping

  /** The decision flow of the action filter, parameterised by the count rule. */
  function Process<T(==), U>(attribute: QueryAttribute, response: Response<T>, options: QueryOptions<T>,
                             applyRest: seq<T> -> seq<U>, executors: seq<Executor<T>>, rule: CountRule): (r: Outcome<U>)
    ensures !(response.isSuccessStatusCode && response.content.ObjectContent?) ==> r == Untouched
    ensures r.Materialized? ==> response.content.ObjectContent? && Materialisable(response.content.value)
    ensures r.Materialized? ==>
      var items := response.content.value.items;
      var pageSize := EffectivePageSize(options.top, attribute.defaultPageSize);
      && (options.count == Some(true) <==> r.totalCount.Some?)
      && (options.count == Some(true) && pageSize.Some? ==> r.totalCount == Some(|Filtered(items, options.filter)|))
      && (pageSize.Some? ==> |r.list| <= PageCapacity(pageSize.value))
  {
    if !(response.content.ObjectContent? && response.isSuccessStatusCode) then Untouched
    else
      match response.content.value
      case NullValue => NoContent
      case StringValue => Untouched
      case NonEnumerable => Untouched
      case Sequence(items, queryable, elementType) =>
        if elementType.NoGenericArgument? then Thrown(ElementTypeMissing)
        else if elementType.MismatchedGenericArgument? then Thrown(GenericArgumentRejected)
        else if queryable && !elementType.isReferenceType then Thrown(GenericArgumentRejected)
        else
          var executor := if queryable then FindAsyncQueryableExecuter(items, executors) else None;
          if !options.valid then ValidationFailed
          else
            var pageSize := EffectivePageSize(options.top, attribute.defaultPageSize);
            var filtered := Filtered(items, options.filter);
            var countRequested := options.count == Some(true);
            var pagedCount := if countRequested && pageSize.Some? then Some(|filtered|) else None;
            var list := Paged(applyRest(filtered), pageSize);
            var path := if executor.Some? then Asynchronous(executor.value) else Synchronous;
            var count :=
              if countRequested && pageSize.None? then
                (match rule
                 case CountAfterShapingWhenUnpaged => Some(|list|)
                 case CountBeforeShaping => Some(|filtered|))
              else pagedCount;
            Materialized(list, path, count)
  }

  /** OnActionExecutedAsync as written. */
  function OnActionExecutedAsync<T(==), U>(attribute: QueryAttribute, response: Response<T>, options: QueryOptions<T>,
                                      applyRest: seq<T> -> seq<U>, executors: seq<Executor<T>>): (r: Outcome<U>)
    // skip conditions
    ensures !(response.isSuccessStatusCode && response.content.ObjectContent?) ==> r == Untouched
    ensures response.isSuccessStatusCode && response.content == ObjectContent(NullValue) ==> r == NoContent
    ensures response.isSuccessStatusCode && response.content.ObjectContent? ==>
            (response.content.value.StringValue? || response.content.value.NonEnumerable?) ==> r == Untouched
    ensures response.isSuccessStatusCode && response.content.ObjectContent? && Materialisable(response.content.value) ==>
            (r == ValidationFailed <==> !options.valid) && (r.Materialized? <==> options.valid)
    // the exceptions, thrown before validation
    ensures r.Thrown? <==>
            response.isSuccessStatusCode && response.content.ObjectContent? && response.content.value.Sequence? &&
            !Materialisable(response.content.value)
    ensures response.isSuccessStatusCode && response.content.ObjectContent? && response.content.value.Sequence? ==>
            var elementType := response.content.value.elementType;
            && (elementType.NoGenericArgument? ==> r == Thrown(ElementTypeMissing))
            && (elementType.MismatchedGenericArgument? ==> r == Thrown(GenericArgumentRejected))
            && (elementType.Derived? && !elementType.isReferenceType && response.content.value.queryable ==>
                  r == Thrown(GenericArgumentRejected))
    // filtering, shaping, paging and counting
    ensures r.Materialized? ==> response.content.ObjectContent? && Materialisable(response.content.value)
    ensures r.Materialized? ==>
      var items := response.content.value.items;
      var shaped := applyRest(Filtered(items, options.filter));
      var pageSize := EffectivePageSize(options.top, attribute.defaultPageSize);
      && |r.list| <= |shaped| && r.list == shaped[..|r.list|]
      && (pageSize.None? ==> r.list == shaped)
      && (pageSize.Some? ==> |r.list| == Min(PageCapacity(pageSize.value), |shaped|))
      && (options.count == Some(true) <==> r.totalCount.Some?)
      && (options.count == Some(true) && pageSize.Some? ==> r.totalCount == Some(|Filtered(items, options.filter)|))
      && (options.count == Some(true) && pageSize.None? ==> r.totalCount == Some(|r.list|))
    // the executor
    ensures r.Materialized? && r.path.Asynchronous? ==>
      var items := response.content.value.items;
      var i := r.path.executor;
      && response.content.value.queryable
      && i < |executors| && executors[i].supportsAsyncExecution(items)
      && forall j :: 0 <= j < i ==> !executors[j].supportsAsyncExecution(items)
    ensures r.Materialized? && r.path.Synchronous? ==>
      var items := response.content.value.items;
      !response.content.value.queryable || forall j :: 0 <= j < |executors| ==> !executors[j].supportsAsyncExecution(items)
  {
    Process(attribute, response, options, applyRest, executors, CountAfterShapingWhenUnpaged)
  }

  /** The corrected filter: the published total count is always the number
      of filtered elements, before `$skip`, `$top` and paging, which is what
      the OData `$count` option asks for. Everything else is unchanged. */
  function OnActionExecutedAsyncCountingFiltered<T(==), U>(attribute: QueryAttribute, response: Response<T>, options: QueryOptions<T>,
                                                      applyRest: seq<T> -> seq<U>, executors: seq<Executor<T>>): (r: Outcome<U>)
    ensures r.Materialized? ==> response.content.ObjectContent? && Materialisable(response.content.value)
    ensures r.Materialized? ==>
      (options.count == Some(true) <==> r.totalCount.Some?) &&
      (options.count == Some(true) ==> r.totalCount == Some(|Filtered(response.content.value.items, options.filter)|))
    ensures match OnActionExecutedAsync(attribute, response, options, applyRest, executors)
      case Materialized(list, path, _) => r.Materialized? && r.list == list && r.path == path
      case other => r == other
  {
    Process(attribute, response, options, applyRest, executors, CountBeforeShaping)
  }
}

=== FILE: type_names.dfy ===
/** Target type names for a compiler type: the OData EDM primitive name, the
    TypeScript name (recursive through collection element types) and the
    JavaScript default value (BitTools/BitTools.Core/Extensions/ITypeSymbolExtensions.cs).

    `useArrayForIEnumerableTypes` is true for DTO properties and method
    parameters and false for method return values: collections then become
    `Array` or `$data.Queryable`. */
module TypeNames {
  import opened Wrappers
  import opened TypeSymbols

  /** The nine CLR scalar type names that have a fixed EDM and TypeScript name. */
  const ScalarNames: set<string> :=
    {"String", "DateTimeOffset", "Boolean", "Int16", "Int32", "Int64", "Guid", "Decimal", "Single"}

  /** Scalars that TypeScript represents as `number`; the wider integers and
      the decimal and floating types travel as `string`. */
  const TsNumberNames: set<string> := {"Int16", "Int32"}
  const TsStringNames: set<string> := {"String", "Int64", "Guid", "Decimal", "Single"}

  function CollectionWrapperName(useArrayForIEnumerableTypes: bool): string {
    if useArrayForIEnumerableTypes then "Array" else "$data.Queryable"
  }

  /** The unwrapped type is a queryable or a collection; the queryable test
      comes first and the collection test is made only when it fails. */
  function IsQueryableOrCollection(u: TypeSymbol): (r: Result<bool, SymbolError>)
    ensures r.Failure? <==> GetUnderlyingTypeSymbol(u).Failure?
    ensures r == Success(true) <==> IsQueryableType(u) == Success(true) || IsCollectionType(u) == Success(true)
  {
    var q :- IsQueryableType(u);
    if q then Success(true) else IsCollectionType(u)
  }

  /** The EDM name: the nine scalars map to `Edm.<CLR name>`, queryables and
      collections to the collection wrapper name, everything else to the
      display string of the unwrapped type. */
  function GetEdmTypeName(t: TypeSymbol, useArrayForIEnumerableTypes: bool): (r: Result<string, SymbolError>)
    ensures GetUnderlyingTypeSymbol(t).Failure? ==> r == Failure(GetUnderlyingTypeSymbol(t).error)
    ensures var u := GetUnderlyingTypeSymbol(t);
      u.Success? && u.value.name in ScalarNames ==> r == Success("Edm." + u.value.name)
    ensures var u := GetUnderlyingTypeSymbol(t);
      u.Success? && u.value.name !in ScalarNames && IsQueryableOrCollection(u.value) == Success(true) ==>
      r == Success(CollectionWrapperName(useArrayForIEnumerableTypes))
    ensures var u := GetUnderlyingTypeSymbol(t);
      u.Success? && u.value.name !in ScalarNames && IsQueryableOrCollection(u.value) == Success(false) ==>
      r == Success(u.value.display)
    ensures var u := GetUnderlyingTypeSymbol(t);
      u.Success? && u.value.name !in ScalarNames && IsQueryableOrCollection(u.value).Failure? ==>
      r == Failure(IsQueryableOrCollection(u.value).error)
  {
    var u :- GetUnderlyingTypeSymbol(t);
    var typeName := u.name;
    if typeName == "String" then assert "Edm.String" == "Edm." + typeName; Success("Edm.String")
    else if typeName == "DateTimeOffset" then assert "Edm.DateTimeOffset" == "Edm." + typeName; Success("Edm.DateTimeOffset")
    else if typeName == "Boolean" then assert "Edm.Boolean" == "Edm." + typeName; Success("Edm.Boolean")
    else if typeName == "Int16" then assert "Edm.Int16" == "Edm." + typeName; Success("Edm.Int16")
    else if typeName == "Int32" then assert "Edm.Int32" == "Edm." + typeName; Success("Edm.Int32")
    else if typeName == "Int64" then assert "Edm.Int64" == "Edm." + typeName; Success("Edm.Int64")
    else if typeName == "Guid" then assert "Edm.Guid" == "Edm." + typeName; Success("Edm.Guid")
    else if typeName == "Decimal" then assert "Edm.Decimal" == "Edm." + typeName; Success("Edm.Decimal")
    else if typeName == "Single" then assert "Edm.Single" == "Edm." + typeName; Success("Edm.Single")
    else
      var isCollection :- IsQueryableOrCollection(u);
      if isCollection then Success(CollectionWrapperName(useArrayForIEnumerableTypes))
      else Success(u.display)
  }

  /** The EDM name of a collection's element type, always with arrays for collections. */
  function GetEdmElementTypeName(t: TypeSymbol): (r: Result<string, SymbolError>)
    ensures GetElementType(t).Failure? ==> r == Failure(GetElementType(t).error)
    ensures GetElementType(t).Success? ==> r == GetEdmTypeName(GetElementType(t).value, true)
  {
    var element :- GetElementType(t);
    GetEdmTypeName(element, true)
  }

  /** The outcome of the TypeScript mapping: a name, an exception, or the
      unbounded recursion the mapping falls into on a collection whose
      element type is the collection itself. */
  datatype TsOutcome = Mapped(name: string) | Thrown(error: SymbolError) | Diverges

  function TsScalarName(name: string): string
    requires name in ScalarNames
  {
    if name == "DateTimeOffset" then "Date"
    else if name == "Boolean" then "boolean"
    else if name in TsNumberNames then "number"
    else "string"
  }

  /** The TypeScript name, computed as the source does. For a queryable or
      collection it wraps the element type's name, and the element is always
      mapped with arrays for nested collections. When the element type is the
      unwrapped type itself (a collection without type arguments) the source
      calls itself again on that type and never returns:
      `selfElement` says what the model answers there, `None` standing for
      that non-termination (`Diverges`) and `Some(n)` for element name `n`. */
  function TypescriptName(t: TypeSymbol, useArrayForIEnumerableTypes: bool, selfElement: Option<string>): (r: TsOutcome)
    ensures GetUnderlyingTypeSymbol(t).Failure? ==> r == Thrown(GetUnderlyingTypeSymbol(t).error)
    ensures var u := GetUnderlyingTypeSymbol(t);
      u.Success? && u.value.name in ScalarNames ==> r == Mapped(TsScalarName(u.value.name))
    ensures var u := GetUnderlyingTypeSymbol(t);
      u.Success? && u.value.name !in ScalarNames && IsQueryableOrCollection(u.value) == Success(false) ==>
      r == Mapped(u.value.display)
    ensures var u := GetUnderlyingTypeSymbol(t);
      u.Success? && u.value.name !in ScalarNames && IsQueryableOrCollection(u.value).Failure? ==>
      r == Thrown(IsQueryableOrCollection(u.value).error)
    ensures var u := GetUnderlyingTypeSymbol(t);
      u.Success? && u.value.name !in ScalarNames && IsQueryableOrCollection(u.value) == Success(true) ==>
      var wrapper := CollectionWrapperName(useArrayForIEnumerableTypes);
      var e := GetElementType(u.value);
      && (e.Failure? ==> r == Thrown(e.error))
      && (e.Success? && e.value == u.value && selfElement.None? ==> r == Diverges)
      && (e.Success? && e.value == u.value && selfElement.Some? ==> r == Mapped(wrapper + "<" + selfElement.value + ">"))
      && (e.Success? && e.value != u.value && TypescriptName(e.value, true, selfElement).Mapped? ==>
            r == Mapped(wrapper + "<" + TypescriptName(e.value, true, selfElement).name + ">"))
      && (e.Success? && e.value != u.value && !TypescriptName(e.value, true, selfElement).Mapped? ==>
            r == TypescriptName(e.value, true, selfElement))
    ensures r.Diverges? ==> selfElement.None?
    ensures r.Diverges? ==> var u := GetUnderlyingTypeSymbol(t);
      u.Success? && u.value.name !in ScalarNames && IsQueryableOrCollection(u.value) == Success(true)
    decreases SpineDepth(t)
  {
    match GetUnderlyingTypeSymbol(t)
    case Failure(e) => Thrown(e)
    case Success(u) =>
      var typeName := u.name;
      if typeName == "String" then Mapped("string")
      else if typeName == "DateTimeOffset" then Mapped("Date")
      else if typeName == "Boolean" then Mapped("boolean")
      else if typeName == "Int16" then Mapped("number")
      else if typeName == "Int32" then Mapped("number")
      else if typeName == "Int64" then Mapped("string")
      else if typeName == "Guid" then Mapped("string")
      else if typeName == "Decimal" then Mapped("string")
      else if typeName == "Single" then Mapped("string")
      else
        match IsQueryableOrCollection(u)
        case Failure(e) => Thrown(e)
        case Success(isCollection) =>
          if !isCollection then Mapped(u.display)
          else
            var wrapper := CollectionWrapperName(useArrayForIEnumerableTypes);
            match GetElementType(u)
            case Failure(e) => Thrown(e)
            case Success(element) =>
              if element == u then
                match selfElement
                case None => Diverges
                case Some(n) => Mapped(wrapper + "<" + n + ">")
              else
                match TypescriptName(element, true, selfElement)
                case Mapped(s) => Mapped(wrapper + "<" + s + ">")
                case other => other
  }

  /** GetTypescriptTypeName as written: non-terminating on a collection that is its own element type. */
  function GetTypescriptTypeName(t: TypeSymbol, useArrayForIEnumerableTypes: bool): (r: TsOutcome)
    ensures GetUnderlyingTypeSymbol(t).Failure? ==> r == Thrown(GetUnderlyingTypeSymbol(t).error)
    ensures var u := GetUnderlyingTypeSymbol(t);
      u.Success? && u.value.name in ScalarNames ==> r == Mapped(TsScalarName(u.value.name))
    ensures var u := GetUnderlyingTypeSymbol(t);
      u.Success? && u.value.name !in ScalarNames && IsQueryableOrCollection(u.value) == Success(false) ==>
      r == Mapped(u.value.display)
    ensures var u := GetUnderlyingTypeSymbol(t);
      u.Success? && u.value.name !in ScalarNames && IsQueryableOrCollection(u.value) == Success(true) ==>
      var wrapper := CollectionWrapperName(useArrayForIEnumerableTypes);
      var e := GetElementType(u.value);
      && (e.Failure? ==> r == Thrown(e.error))
      && (e.Success? && e.value == u.value ==> r == Diverges)
      && (e.Success? && e.value != u.value && GetTypescriptTypeName(e.value, true).Mapped? ==>
            r == Mapped(wrapper + "<" + GetTypescriptTypeName(e.value, true).name + ">"))
      && (e.Success? && e.value != u.value && !GetTypescriptTypeName(e.value, true).Mapped? ==>
            r == GetTypescriptTypeName(e.value, true))
    ensures var u := GetUnderlyingTypeSymbol(t);
      u.Success? && u.value.name !in ScalarNames && IsQueryableOrCollection(u.value).Failure? ==>
      r == Thrown(IsQueryableOrCollection(u.value).error)
    ensures r.Diverges? ==> var u := GetUnderlyingTypeSymbol(t);
      u.Success? && u.value.name !in ScalarNames && IsQueryableOrCollection(u.value) == Success(true)
  {
    TypescriptName(t, useArrayForIEnumerableTypes, None)
  }

  /** GetTypeScriptElementTypeName: the element type mapped with arrays for collections. */
  function GetTypeScriptElementTypeName(t: TypeSymbol): (r: TsOutcome)
    ensures GetElementType(t).Failure? ==> r == Thrown(GetElementType(t).error)
    ensures GetElementType(t).Success? ==> r == GetTypescriptTypeName(GetElementType(t).value, true)
  {
    match GetElementType(t)
    case Failure(e) => Thrown(e)
    case Success(element) => GetTypescriptTypeName(element, true)
  }

  /** The corrected mapping: a collection that is its own element type gets
      element name `any` instead of recursing forever, whether or not it sits
      behind a Task/Nullable layer. It always terminates and agrees with the
      source wherever the source terminates. */
  function GetTypescriptTypeNameTerminating(t: TypeSymbol, useArrayForIEnumerableTypes: bool): (r: TsOutcome)
    ensures !r.Diverges?
    ensures GetTypescriptTypeName(t, useArrayForIEnumerableTypes) != Diverges ==>
      r == GetTypescriptTypeName(t, useArrayForIEnumerableTypes)
  {
    SelfElementOnlyMattersOnDivergence(t, useArrayForIEnumerableTypes, "any");
    TypescriptName(t, useArrayForIEnumerableTypes, Some("any"))
  }

  /** Where the source mapping terminates, the answer for a self-element is
      never consulted, so every choice of it gives the source's result. */
  lemma {:induction false} SelfElementOnlyMattersOnDivergence(t: TypeSymbol, useArrayForIEnumerableTypes: bool, n: string)
    ensures TypescriptName(t, useArrayForIEnumerableTypes, None) != Diverges ==>
      TypescriptName(t, useArrayForIEnumerableTypes, Some(n)) == TypescriptName(t, useArrayForIEnumerableTypes, None)
    decreases SpineDepth(t)
  {
    match GetUnderlyingTypeSymbol(t)
    case Failure(_) =>
    case Success(u) =>
      if u.name !in ScalarNames && IsQueryableOrCollection(u) == Success(true) {
        match GetElementType(u)
        case Failure(_) =>
        case Success(element) =>
          if element != u {
            SelfElementOnlyMattersOnDivergence(element, true, n);
          }
      }
  }

  /** The JavaScript default: an empty array for collections, null otherwise. */
  function GetJavaScriptDefaultValue(t: TypeSymbol): (r: Result<string, SymbolError>)
    ensures r.Failure? <==> IsCollectionType(t).Failure?
    ensures r == Success("[]") <==> IsCollectionType(t) == Success(true)
    ensures r == Success("null") <==> IsCollectionType(t) == Success(false)
  {
    var isCollection :- IsCollectionType(t);
    if isCollection then Success("[]") else Success("null")
  }
}

=== FILE: type_properties.dfy ===
/** Properties relating the type classifiers and the type-name mappers to one
    another and to the wrapper, collection and DTO conventions they encode. */
module TypeProperties {
  import opened Wrappers
  import opened TypeSymbols
  import opened TypeNames

  /** A generic named reference type with the given type arguments and interfaces. */
  function Generic(name: string, args: seq<TypeSymbol>, interfaces: seq<TypeSymbol>): TypeSymbol {
    TypeSymbol(name, NamedShape(args), interfaces, false, Some("Object"), Class, [], name)
  }

  /** An interface with nothing below it. */
  function Marker(name: string): TypeSymbol {
    TypeSymbol(name, NamedShape([]), [], false, None, Interface, [], name)
  }

  const Int32Symbol := TypeSymbol("Int32", NamedShape([]), [], true, Some("ValueType"), Struct, [], "int")
  const EnumerableInterface := Marker("IEnumerable")

  // ---- unwrapping ----------------------------------------------------------

  /** Unwrapping strips exactly one layer: a second unwrap changes the result
      again exactly when the first result is itself a wrapper. */
  lemma {:induction false} SecondUnwrapIsIdentityIffNoWrapperLeft(t: TypeSymbol, u: TypeSymbol)
    requires GetUnderlyingTypeSymbol(t) == Success(u)
    ensures GetUnderlyingTypeSymbol(u) == Success(u) <==> !Wraps(u)
  {
    if Wraps(u) && |u.shape.typeArguments| == 1 {
      assert SpineDepth(u.shape.typeArguments[0]) < SpineDepth(u);
    }
  }

  /** Task<X> and Nullable<X> unwrap to X whatever X is, even another wrapper. */
  lemma UnwrapOfSingleArgumentWrapper(wrapperName: string, x: TypeSymbol)
    requires IsWrapperName(wrapperName)
    ensures GetUnderlyingTypeSymbol(Generic(wrapperName, [x], [])) == Success(x)
    ensures GetUnderlyingTypeSymbol(Generic("Task", [Generic("Task", [x], [])], [])) != Success(x)
  {
    var inner := Generic("Task", [x], []);
    assert SpineDepth(x) < SpineDepth(inner);
  }

  /** One Task/Nullable layer is transparent: wrapped around a type that is
      not itself a wrapper, it changes none of the classifiers that unwrap
      first, nor the element type or the JavaScript default. */
  lemma UnwrapTransparency(wrapperName: string, x: TypeSymbol)
    requires IsWrapperName(wrapperName) && !Wraps(x)
    ensures var w := Generic(wrapperName, [x], []);
      && IsVoid(w) == IsVoid(x)
      && IsCollectionType(w) == IsCollectionType(x)
      && IsQueryableType(w) == IsQueryableType(x)
      && IsEnum(w) == IsEnum(x)
      && GetElementType(w) == GetElementType(x)
      && GetUnderlyingComplexType(w) == GetUnderlyingComplexType(x)
      && IsComplexType(w) == IsComplexType(x)
      && GetJavaScriptDefaultValue(w) == GetJavaScriptDefaultValue(x)
  {
  }

  /** Both TypeScript mappings unwrap first, so one Task/Nullable layer around
      a non-wrapper changes neither the source's name nor the corrected one. */
  lemma TypescriptNameUnwrapTransparency(wrapperName: string, x: TypeSymbol, useArrayForIEnumerableTypes: bool)
    requires IsWrapperName(wrapperName) && !Wraps(x)
    ensures var w := Generic(wrapperName, [x], []);
      && GetTypescriptTypeName(w, useArrayForIEnumerableTypes) == GetTypescriptTypeName(x, useArrayForIEnumerableTypes)
      && GetTypescriptTypeNameTerminating(w, useArrayForIEnumerableTypes) == GetTypescriptTypeNameTerminating(x, useArrayForIEnumerableTypes)
  {
  }

  /** IsNullable reads the symbol as given: Nullable<Int32> is nullable even
      though it unwraps to Int32, which is not; every reference type is. */
  lemma NullableDoesNotUnwrap()
    ensures var nullableInt := TypeSymbol("Nullable", NamedShape([Int32Symbol]), [], true, Some("ValueType"), Struct, [], "int?");
      && GetUnderlyingTypeSymbol(nullableInt) == Success(Int32Symbol)
      && IsNullable(nullableInt)
      && !IsNullable(Int32Symbol)
      && IsNullable(Generic("List", [Int32Symbol], [EnumerableInterface]))
  {
  }

  /** For every Nullable<X> over a value type X that is not itself Nullable,
      the wrapper is nullable while the type it unwraps to is not: IsNullable
      reads the symbol as given. */
  lemma NullableIsNullableUnlikeItsArgument(w: TypeSymbol)
    requires w.name == "Nullable" && w.shape.NamedShape? && |w.shape.typeArguments| == 1
    requires w.shape.typeArguments[0].isValueType && w.shape.typeArguments[0].name != "Nullable"
    ensures GetUnderlyingTypeSymbol(w) == Success(w.shape.typeArguments[0])
    ensures IsNullable(w) && !IsNullable(w.shape.typeArguments[0])
  {
  }

  // ---- void ----------------------------------------------------------------

  /** A non-generic Task is void; Task<X> is void exactly when X is named Void or Task. */
  lemma TaskVoidness(x: TypeSymbol)
    ensures IsVoid(Generic("Task", [], [])) == Success(true)
    ensures IsVoid(Generic("Task", [x], [])) == Success(x.name == "Void" || x.name == "Task")
    ensures IsVoid(Generic("Task", [Int32Symbol], [])) == Success(false)
  {
  }

  // ---- collections ---------------------------------------------------------

  /** Arrays are collections whatever their element, unless named String. */
  lemma ArraysAreCollections(t: TypeSymbol)
    requires t.shape.ArrayShape? && t.name != StringName
    ensures IsCollectionType(t) == Success(true)
    ensures GetElementType(t) == Success(t.shape.elementType)
  {
  }

  /** Implementing IEnumerable makes a non-string type a collection; a
      String is never one, whatever it implements. */
  lemma EnumerableImplementersAreCollections(t: TypeSymbol, k: nat)
    requires !Wraps(t) && k < |t.allInterfaces| && t.allInterfaces[k].name == EnumerableName
    ensures IsCollectionType(t) == Success(t.name != StringName)
  {
  }

  /** The element type exists exactly for collections whose unwrapped form
      does not carry two or more type arguments. */
  lemma ElementTypeDefinedIffCollection(t: TypeSymbol)
    requires GetUnderlyingTypeSymbol(t).Success?
    ensures var u := GetUnderlyingTypeSymbol(t).value;
      GetElementType(t).Success? <==>
        && IsCollectionType(u) == Success(true)
        && !(u.shape.NamedShape? && |u.shape.typeArguments| > 1)
  {
  }

  /** A collection that is its own element type: not a wrapper, not an
      array, no type arguments (a named type without them, a type parameter,
      or any other shape), and classified as a collection. */
  predicate IsUntypedCollection(u: TypeSymbol) {
    && !Wraps(u)
    && !u.shape.ArrayShape?
    && !(u.shape.NamedShape? && |u.shape.typeArguments| > 0)
    && IsCollectionType(u) == Success(true)
  }

  /** The element type of an untyped collection is the collection itself. */
  lemma UntypedCollectionIsItsOwnElement(u: TypeSymbol)
    requires IsUntypedCollection(u)
    ensures GetElementType(u) == Success(u)
  {
  }

  // ---- complex types -------------------------------------------------------

  /** A collection is complex exactly when its element type is: the
      attribute is looked up on List<C>'s element C, and on C itself when C
      is no collection. */
  lemma ComplexTypeOfElement(c: TypeSymbol)
    requires !Wraps(c) && IsCollectionType(c) == Success(false)
    ensures var list := Generic("List", [c], [EnumerableInterface]);
      && GetUnderlyingComplexType(list) == Success(c)
      && GetUnderlyingComplexType(c) == Success(c)
      && IsComplexType(list) == IsComplexType(c)
  {
    var list := Generic("List", [c], [EnumerableInterface]);
    assert list.allInterfaces[0].name == EnumerableName;
  }

  /** An enum is recognised through one wrapper layer: Nullable<E> is an enum
      type when E is, since the base type is read after unwrapping. */
  lemma NullableEnumIsEnum(e: TypeSymbol)
    requires !Wraps(e) && e.baseTypeName == Some("Enum")
    ensures IsEnum(e) == Success(true)
    ensures IsEnum(Generic("Nullable", [e], [])) == Success(true)
    ensures IsEnum(Generic("Nullable", [e], []).(baseTypeName := Some("ValueType"))) == Success(true)
  {
  }

  // ---- DTOs ----------------------------------------------------------------

  /** Only classes and type parameters can be DTOs: a struct or interface
      that implements IDto is not one. */
  lemma NonClassesAreNotDtos(t: TypeSymbol)
    requires !t.shape.TypeParameterShape? && t.typeKind != Class
    ensures !IsDto(t)
  {
  }

  /** IDto reached through an intermediate interface still makes a class a DTO. */
  lemma IndirectIDtoMakesDto(t: TypeSymbol, k: nat, j: nat)
    requires !t.shape.TypeParameterShape? && t.typeKind == Class
    requires k < |t.allInterfaces| && j < |t.allInterfaces[k].allInterfaces|
    requires t.allInterfaces[k].allInterfaces[j].name == "IDto"
    ensures IsDto(t)
  {
    ClosureContainsNested(t.allInterfaces, k, j);
  }

  /** The closure holds the interfaces of every listed interface. */
  lemma {:induction false} ClosureContainsNested(interfaces: seq<TypeSymbol>, k: nat, j: nat)
    requires k < |interfaces| && j < |interfaces[k].allInterfaces|
    ensures interfaces[k].allInterfaces[j] in InterfaceClosure(interfaces)
    decreases k
  {
    var nested := interfaces[k].allInterfaces;
    if k == 0 {
      ClosureContainsListed(nested, j);
    } else {
      ClosureContainsNested(interfaces[1..], k - 1, j);
    }
  }

  /** The closure holds every listed interface. */
  lemma {:induction false} ClosureContainsListed(interfaces: seq<TypeSymbol>, j: nat)
    requires j < |interfaces|
    ensures interfaces[j] in InterfaceClosure(interfaces)
    decreases j
  {
    if j > 0 {
      ClosureContainsListed(interfaces[1..], j - 1);
    }
  }

  /** A type parameter constrained to a DTO class is itself a DTO. */
  lemma TypeParameterConstrainedToDto(p: TypeSymbol, k: nat)
    requires p.shape.TypeParameterShape? && k < |p.shape.constraintTypes| && IsDto(p.shape.constraintTypes[k])
    ensures IsDto(p)
  {
  }

  // ---- type names ----------------------------------------------------------

  /** For every type that is not one of the nine scalars, the EDM name is a
      prefix of the TypeScript name: the same display string, or the same
      collection wrapper followed by the bracketed element name. */
  lemma TsNameExtendsEdmName(t: TypeSymbol, useArrayForIEnumerableTypes: bool)
    requires GetUnderlyingTypeSymbol(t).Success? && GetUnderlyingTypeSymbol(t).value.name !in ScalarNames
    requires GetTypescriptTypeName(t, useArrayForIEnumerableTypes).Mapped?
    ensures GetEdmTypeName(t, useArrayForIEnumerableTypes).Success?
    ensures GetEdmTypeName(t, useArrayForIEnumerableTypes).value <= GetTypescriptTypeName(t, useArrayForIEnumerableTypes).name
  {
  }

  /** The scalars agree between the two vocabularies: exactly the EDM Int16
      and Int32 types are TypeScript numbers. */
  lemma ScalarNamesAgree(t: TypeSymbol, useArrayForIEnumerableTypes: bool)
    requires GetUnderlyingTypeSymbol(t).Success? && GetUnderlyingTypeSymbol(t).value.name in ScalarNames
    ensures GetTypescriptTypeName(t, useArrayForIEnumerableTypes) == Mapped("number") <==>
      GetEdmTypeName(t, useArrayForIEnumerableTypes) in {Success("Edm.Int16"), Success("Edm.Int32")}
  {
    var name := GetUnderlyingTypeSymbol(t).value.name;
    var edm := "Edm." + name;
    assert GetEdmTypeName(t, useArrayForIEnumerableTypes) == Success(edm);
    assert GetTypescriptTypeName(t, useArrayForIEnumerableTypes) == Mapped(TsScalarName(name));
    // the EDM name determines the CLR name: it is what follows the prefix
    assert edm[4..] == name;
    assert "Edm.Int16"[4..] == "Int16" && "Edm.Int32"[4..] == "Int32";
  }

  /** Nested collections: the outer wrapper follows the flag, every inner one is an Array. */
  lemma NestedListMapping()
    ensures var inner := Generic("List", [Int32Symbol], [EnumerableInterface]);
      && GetTypescriptTypeName(Generic("List", [inner], [EnumerableInterface]), false) == Mapped("$data.Queryable<Array<number>>")
      && GetEdmTypeName(Generic("List", [inner], [EnumerableInterface]), false) == Success("$data.Queryable")
      && GetEdmElementTypeName(Generic("List", [inner], [EnumerableInterface])) == Success("Array")
  {
    var inner := Generic("List", [Int32Symbol], [EnumerableInterface]);
    ListOfInt32Mapping();
    var outer := Generic("List", [inner], [EnumerableInterface]);
    assert outer.allInterfaces[0].name == EnumerableName;
    assert GetUnderlyingTypeSymbol(outer) == Success(outer);
    assert IsCollectionType(outer) == Success(true);
    assert IsQueryableOrCollection(outer) == Success(true);
    assert GetElementType(outer) == Success(inner);
    assert inner != outer;
    assert "$data.Queryable" + "<" + "Array<number>" + ">" == "$data.Queryable<Array<number>>";
  }

  /** List<Int32> with the flag set maps to Array<number>, and its EDM name is Array. */
  lemma ListOfInt32Mapping()
    ensures var inner := Generic("List", [Int32Symbol], [EnumerableInterface]);
      && IsCollectionType(inner) == Success(true)
      && GetTypescriptTypeName(inner, true) == Mapped("Array<number>")
      && GetEdmTypeName(inner, true) == Success("Array")
  {
    var inner := Generic("List", [Int32Symbol], [EnumerableInterface]);
    assert inner.allInterfaces[0].name == EnumerableName;
    assert IsCollectionType(inner) == Success(true);
    assert GetElementType(inner) == Success(Int32Symbol);
    assert SpineDepth(Int32Symbol) < SpineDepth(inner);
    assert "Array" + "<" + "number" + ">" == "Array<number>";
  }

  /** Every untyped collection that is not a scalar name sends the source
      mapping into endless recursion, with either flag, and directly or
      behind one Task/Nullable layer. */
  lemma UntypedCollectionsDiverge(u: TypeSymbol, useArrayForIEnumerableTypes: bool, wrapperName: string)
    requires IsUntypedCollection(u) && u.name !in ScalarNames && IsWrapperName(wrapperName)
    ensures GetTypescriptTypeName(u, useArrayForIEnumerableTypes) == Diverges
    ensures GetTypescriptTypeName(Generic(wrapperName, [u], []), useArrayForIEnumerableTypes) == Diverges
  {
    var w := Generic(wrapperName, [u], []);
    assert SpineDepth(u) < SpineDepth(w);
    assert GetTypescriptTypeName(u, true) == Diverges;
  }

  /** Divergence reaches the enclosing type: List<ArrayList> is not its own
      element type, yet its mapping diverges because ArrayList's does. */
  lemma NestedUntypedDiverges()
    ensures var arrayList := Generic("ArrayList", [], [EnumerableInterface]);
      var list := Generic("List", [arrayList], [EnumerableInterface]);
      && GetElementType(list) == Success(arrayList) && arrayList != list
      && GetTypescriptTypeName(list, false) == Diverges
  {
    var arrayList := Generic("ArrayList", [], [EnumerableInterface]);
    var list := Generic("List", [arrayList], [EnumerableInterface]);
    assert arrayList.allInterfaces[0].name == EnumerableName && list.allInterfaces[0].name == EnumerableName;
    assert SpineDepth(arrayList) < SpineDepth(list);
    assert GetElementType(list) == Success(arrayList);
    UntypedCollectionsDiverge(arrayList, true, "Task");
  }

  /** The corrected mapping gives List<ArrayList> a name: the inner untyped
      collection becomes an array of `any`. */
  lemma NestedUntypedCorrected()
    ensures var list := Generic("List", [Generic("ArrayList", [], [EnumerableInterface])], [EnumerableInterface]);
      GetTypescriptTypeNameTerminating(list, false) == Mapped("$data.Queryable<Array<any>>")
  {
    var arrayList := Generic("ArrayList", [], [EnumerableInterface]);
    var list := Generic("List", [arrayList], [EnumerableInterface]);
    assert arrayList.allInterfaces[0].name == EnumerableName && list.allInterfaces[0].name == EnumerableName;
    assert SpineDepth(arrayList) < SpineDepth(list);
    assert GetElementType(list) == Success(arrayList);
    assert GetElementType(arrayList) == Success(arrayList);
    assert "Array" + "<" + "any" + ">" == "Array<any>";
    assert TypescriptName(arrayList, true, Some("any")) == Mapped("Array<any>");
    assert "$data.Queryable" + "<" + "Array<any>" + ">" == "$data.Queryable<Array<any>>";
  }

  /** A concrete case: a non-generic ArrayList, named alike by the corrected
      mapping with or without a Task layer. */
  lemma ArrayListDiverges()
    ensures var arrayList := Generic("ArrayList", [], [EnumerableInterface]);
      && GetTypescriptTypeName(arrayList, false) == Diverges
      && GetTypescriptTypeNameTerminating(arrayList, false) == Mapped("$data.Queryable<any>")
      && GetTypescriptTypeNameTerminating(Generic("Task", [arrayList], []), false) == Mapped("$data.Queryable<any>")
      && GetEdmTypeName(arrayList, false) == Success("$data.Queryable")
  {
    var arrayList := Generic("ArrayList", [], [EnumerableInterface]);
    assert arrayList.allInterfaces[0].name == EnumerableName;
    UntypedCollectionsDiverge(arrayList, false, "Task");
    TypescriptNameUnwrapTransparency("Task", arrayList, false);
  }
}

=== FILE: type_symbols.dfy ===
/** A compiler type description and the classifications the code generator
    draws from it: unwrapping one Task/Nullable layer, void, collection,
    queryable, nullable, enum, complex and DTO types, and a collection's
    element type (BitTools/BitTools.Core/Extensions/ITypeSymbolExtensions.cs).

    The compiler's symbol API is replaced by one immutable recursive datatype.
    Everything the classifiers read from a symbol is a field of it; what the
    compiler would compute (the transitive interface list, the display string,
    the resolved attribute class names) is taken as given. */
module TypeSymbols {
  import opened Wrappers

  /** The coarse kind the compiler reports for a type; only `Class` matters here. */
  datatype TypeKind = Class | Struct | Interface | Enum | Delegate | ArrayKind | TypeParameterKind | OtherKind

  /** Which of the compiler's symbol interfaces the symbol implements, with
      what that interface exposes: an array's element type, a named type's
      type arguments, a type parameter's constraint types. */
  datatype Shape =
    | ArrayShape(elementType: TypeSymbol)
    | NamedShape(typeArguments: seq<TypeSymbol>)
    | TypeParameterShape(constraintTypes: seq<TypeSymbol>)
    | OtherShape

  datatype TypeSymbol = TypeSymbol(
    name: string,                   // metadata name without namespace or arity: "Task", "Int32", "IEnumerable"
    shape: Shape,
    allInterfaces: seq<TypeSymbol>, // every interface the type implements, as the compiler lists them
    isValueType: bool,
    baseTypeName: Option<string>,   // name of the base type, None when there is none
    typeKind: TypeKind,
    attributeNames: seq<string>,    // names of the attribute classes applied to the type
    display: string)                // the compiler's fully qualified display string

  /** The exceptions the classifiers can throw on a non-null symbol:
      `Enumerable.Single` on more than one type argument, and
      `GetElementType` on a type that is not a collection. */
  datatype SymbolError = MoreThanOneElement | NotACollectionType

  const StringName := "String"
  const EnumerableName := "IEnumerable"
  const QueryableName := "IQueryable"

  predicate IsWrapperName(name: string) {
    name == "Task" || name == "Nullable"
  }

  /** A named type called Task or Nullable that has type arguments: the only
      kind of symbol that unwrapping changes. */
  predicate Wraps(t: TypeSymbol) {
    IsWrapperName(t.name) && t.shape.NamedShape? && |t.shape.typeArguments| > 0
  }

  predicate ImplementsInterfaceNamed(t: TypeSymbol, name: string) {
    exists i :: 0 <= i < |t.allInterfaces| && t.allInterfaces[i].name == name
  }

  /** The length of the chain of array elements and single type arguments
      below a type: the measure the element-type recursion descends. */
  function SpineDepth(t: TypeSymbol): nat {
    match t.shape
    case ArrayShape(e) => 1 + SpineDepth(e)
    case NamedShape(args) => if |args| == 1 then 1 + SpineDepth(args[0]) else 0
    case _ => 0
  }

  /** Strips one Task/Nullable layer; every other symbol is returned as is. */
  function GetUnderlyingTypeSymbol(t: TypeSymbol): (r: Result<TypeSymbol, SymbolError>)
    ensures !Wraps(t) ==> r == Success(t)
    ensures Wraps(t) && |t.shape.typeArguments| == 1 ==> r == Success(t.shape.typeArguments[0])
    ensures Wraps(t) && |t.shape.typeArguments| > 1 ==> r == Failure(MoreThanOneElement)
    ensures r.Success? ==> r.value == t || SpineDepth(r.value) < SpineDepth(t)
  {
    if IsWrapperName(t.name) && t.shape.NamedShape? && |t.shape.typeArguments| > 0 then
      if |t.shape.typeArguments| == 1 then Success(t.shape.typeArguments[0])
      else Failure(MoreThanOneElement)
    else
      Success(t)
  }

  /** Void, or a non-generic Task, once one wrapper layer is stripped. */
  function IsVoid(t: TypeSymbol): (r: Result<bool, SymbolError>)
    ensures r.Failure? <==> GetUnderlyingTypeSymbol(t).Failure?
    ensures !Wraps(t) ==> (r == Success(true) <==> t.name in {"Void", "Task"})
    ensures r.Success? ==> (r.value <==> GetUnderlyingTypeSymbol(t).value.name in {"Void", "Task"})
  {
    var u :- GetUnderlyingTypeSymbol(t);
    Success(u.name == "Void" || u.name == "Task")
  }

  /** Arrays and enumerable types, strings excluded, once unwrapped. */
  function IsCollectionType(t: TypeSymbol): (r: Result<bool, SymbolError>)
    ensures r.Failure? <==> GetUnderlyingTypeSymbol(t).Failure?
    ensures r.Success? && GetUnderlyingTypeSymbol(t).value.name == StringName ==> !r.value
    ensures r.Success? && GetUnderlyingTypeSymbol(t).value.name != StringName ==>
      (r.value <==> var u := GetUnderlyingTypeSymbol(t).value;
                    u.shape.ArrayShape? || u.name == EnumerableName || ImplementsInterfaceNamed(u, EnumerableName))
  {
    var u :- GetUnderlyingTypeSymbol(t);
    Success(u.name != StringName && (u.shape.ArrayShape? || u.name == EnumerableName || ImplementsInterfaceNamed(u, EnumerableName)))
  }

  /** Types implementing IQueryable, once unwrapped. */
  function IsQueryableType(t: TypeSymbol): (r: Result<bool, SymbolError>)
    ensures r.Failure? <==> GetUnderlyingTypeSymbol(t).Failure?
    ensures r.Success? ==> (r.value <==> ImplementsInterfaceNamed(GetUnderlyingTypeSymbol(t).value, QueryableName))
  {
    var u :- GetUnderlyingTypeSymbol(t);
    Success(ImplementsInterfaceNamed(u, QueryableName))
  }

  /** Reference types and Nullable; unlike the other classifiers it does not unwrap. */
  function IsNullable(t: TypeSymbol): (r: bool)
    ensures !t.isValueType ==> r
    ensures t.name == "Nullable" ==> r
    ensures r ==> !t.isValueType || t.name == "Nullable"
  {
    t.isValueType == false || t.name == "Nullable"
  }

  /** The element type of a collection: an array's element, the single type
      argument of a generic collection, and for a collection without type
      arguments the (unwrapped) type itself. */
  function GetElementType(t: TypeSymbol): (r: Result<TypeSymbol, SymbolError>)
    ensures GetUnderlyingTypeSymbol(t).Failure? ==> r == Failure(GetUnderlyingTypeSymbol(t).error)
    ensures var u := GetUnderlyingTypeSymbol(t);
      u.Success? && IsCollectionType(u.value).Failure? ==> r == Failure(IsCollectionType(u.value).error)
    ensures var u := GetUnderlyingTypeSymbol(t);
      u.Success? && IsCollectionType(u.value) == Success(false) ==> r == Failure(NotACollectionType)
    ensures var u := GetUnderlyingTypeSymbol(t);
      u.Success? && IsCollectionType(u.value) == Success(true) && u.value.shape.ArrayShape? ==> r == Success(u.value.shape.elementType)
    ensures var u := GetUnderlyingTypeSymbol(t);
      u.Success? && IsCollectionType(u.value) == Success(true) && u.value.shape.NamedShape? && |u.value.shape.typeArguments| == 1 ==>
      r == Success(u.value.shape.typeArguments[0])
    ensures var u := GetUnderlyingTypeSymbol(t);
      u.Success? && IsCollectionType(u.value) == Success(true) && u.value.shape.NamedShape? && |u.value.shape.typeArguments| > 1 ==>
      r == Failure(MoreThanOneElement)
    ensures var u := GetUnderlyingTypeSymbol(t);
      u.Success? && IsCollectionType(u.value) == Success(true) && !u.value.shape.ArrayShape? &&
      !(u.value.shape.NamedShape? && |u.value.shape.typeArguments| > 0) ==>
      r == Success(u.value)
    ensures r.Success? ==> GetUnderlyingTypeSymbol(t).Success?
    ensures r.Success? ==> var u := GetUnderlyingTypeSymbol(t).value;
      r.value == u || SpineDepth(r.value) < SpineDepth(u)
    ensures r.Success? ==> r.value == t || SpineDepth(r.value) < SpineDepth(t)
  {
    var u :- GetUnderlyingTypeSymbol(t);
    var isCollection :- IsCollectionType(u);
    if !isCollection then Failure(NotACollectionType)
    else match u.shape
      case ArrayShape(e) => Success(e)
      case NamedShape(args) =>
        if |args| == 0 then Success(u)
        else if |args| == 1 then Success(args[0])
        else Failure(MoreThanOneElement)
      case _ => Success(u)
  }

  /** Types whose (unwrapped) base type is named Enum. */
  function IsEnum(t: TypeSymbol): (r: Result<bool, SymbolError>)
    ensures r.Failure? <==> GetUnderlyingTypeSymbol(t).Failure?
    ensures r.Success? ==> (r.value <==> GetUnderlyingTypeSymbol(t).value.baseTypeName == Some("Enum"))
  {
    var u :- GetUnderlyingTypeSymbol(t);
    Success(u.baseTypeName == Some("Enum"))
  }

  /** The type itself once unwrapped, or its element type when it is a collection. */
  function GetUnderlyingComplexType(t: TypeSymbol): (r: Result<TypeSymbol, SymbolError>)
    ensures GetUnderlyingTypeSymbol(t).Failure? ==> r == Failure(GetUnderlyingTypeSymbol(t).error)
    ensures var u := GetUnderlyingTypeSymbol(t);
      u.Success? && IsCollectionType(u.value).Failure? ==> r == Failure(IsCollectionType(u.value).error)
    ensures var u := GetUnderlyingTypeSymbol(t);
      u.Success? && IsCollectionType(u.value) == Success(false) ==> r == u
    ensures var u := GetUnderlyingTypeSymbol(t);
      u.Success? && IsCollectionType(u.value) == Success(true) ==> r == GetElementType(u.value)
  {
    var u :- GetUnderlyingTypeSymbol(t);
    var isCollection :- IsCollectionType(u);
    if isCollection then GetElementType(u) else Success(u)
  }

  const ComplexTypeAttributeName := "ComplexTypeAttribute"

  /** Types (or element types) marked with the ComplexType attribute. */
  function IsComplexType(t: TypeSymbol): (r: Result<bool, SymbolError>)
    ensures r.Failure? <==> GetUnderlyingComplexType(t).Failure?
    ensures r.Success? ==> (r.value <==> ComplexTypeAttributeName in GetUnderlyingComplexType(t).value.attributeNames)
  {
    var c :- GetUnderlyingComplexType(t);
    Success(exists k :: 0 <= k < |c.attributeNames| && c.attributeNames[k] == ComplexTypeAttributeName)
  }

  /** The search over an interface list: each interface is IDto itself or has
      IDto among its own interfaces, depth first, stopping at the first hit.
      The early exit does not change the answer: it holds iff some listed
      interface qualifies. */
  function InterfacesContainDto(interfaces: seq<TypeSymbol>): (r: bool)
    ensures r <==> exists i :: 0 <= i < |interfaces| && (interfaces[i].name == "IDto" || InterfacesContainDto(interfaces[i].allInterfaces))
    decreases interfaces
  {
    if |interfaces| == 0 then false
    else if interfaces[0].name == "IDto" then true
    else if InterfacesContainDto(interfaces[0].allInterfaces) then true
    else InterfacesContainDto(interfaces[1..])
  }

  /** Every interface reachable from a list through the interfaces' own interface lists. */
  function InterfaceClosure(interfaces: seq<TypeSymbol>): set<TypeSymbol>
    decreases interfaces
  {
    if |interfaces| == 0 then {}
    else {interfaces[0]} + InterfaceClosure(interfaces[0].allInterfaces) + InterfaceClosure(interfaces[1..])
  }

  predicate ClosureHasDto(interfaces: seq<TypeSymbol>) {
    exists i :: i in InterfaceClosure(interfaces) && i.name == "IDto"
  }

  /** The depth-first search finds IDto exactly when IDto is in the transitive closure. */
  lemma {:induction false} InterfacesContainDtoIffInClosure(interfaces: seq<TypeSymbol>)
    ensures InterfacesContainDto(interfaces) <==> ClosureHasDto(interfaces)
    decreases interfaces
  {
    if |interfaces| > 0 {
      var head, tail := interfaces[0], interfaces[1..];
      InterfacesContainDtoIffInClosure(head.allInterfaces);
      InterfacesContainDtoIffInClosure(tail);
      assert InterfaceClosure(interfaces) == {head} + InterfaceClosure(head.allInterfaces) + InterfaceClosure(tail);
      if head.name == "IDto" {
        assert head in InterfaceClosure(interfaces);
      }
      if ClosureHasDto(interfaces) {
        var i :| i in InterfaceClosure(interfaces) && i.name == "IDto";
        if i !in InterfaceClosure(head.allInterfaces) && i !in InterfaceClosure(tail) {
          assert i == head;
        }
      }
      if ClosureHasDto(head.allInterfaces) {
        var i :| i in InterfaceClosure(head.allInterfaces) && i.name == "IDto";
        assert i in InterfaceClosure(interfaces);
      }
      if ClosureHasDto(tail) {
        var i :| i in InterfaceClosure(tail) && i.name == "IDto";
        assert i in InterfaceClosure(interfaces);
      }
    }
  }

  /** A type parameter is a DTO when one of its constraints is; any other type
      when it is a class with IDto among its transitive interfaces. */
  function IsDto(t: TypeSymbol): (r: bool)
    ensures t.shape.TypeParameterShape? ==>
      (r <==> exists k :: 0 <= k < |t.shape.constraintTypes| && IsDto(t.shape.constraintTypes[k]))
    ensures !t.shape.TypeParameterShape? ==> (r <==> t.typeKind == Class && ClosureHasDto(t.allInterfaces))
    decreases t
  {
    match t.shape
    case TypeParameterShape(constraints) => exists c :: c in constraints && IsDto(c)
    case _ =>
      InterfacesContainDtoIffInClosure(t.allInterfaces);
      t.typeKind == Class && InterfacesContainDto(t.allInterfaces)
  }
}

=== FILE: wrappers.dfy ===
/** Option, and the failure-compatible Result datatype, shared by the model.
    Result stands for a .NET call that either returns a value or throws. */
module Wrappers {

  /** A value that may be absent: the model of a C# `int?` or of a null reference. */
  datatype Option<+T> = None | Some(value: T)

  /** Either the value a call returned or the exception it threw. */
  datatype Result<+T, +E> = Success(value: T) | Failure(error: E) {

    predicate IsFailure() {
      Failure?
    }

    function PropagateFailure<U>(): Result<U, E>
      requires Failure?
    {
      Failure(error)
    }

    function Extract(): T
      requires Success?
    {
      value
    }
  }
}
